=== FILE: README.md ===
# E-Housing payment and booking-statistics handlers, modelled in Dafny

The E-Housing API has two Express controllers. Most of each handler is plumbing
(ORM calls, calls to the Safaricom M-Pesa sandbox, `res.status(...)`). This
project models the sequential logic inside that plumbing as pure functions over
immutable data and proves what the handlers promise:

- **STK-push input guards and phone normalisation** (`payment`): `phone` and
  `amount` must both be truthy, `phone` must be a string, and the number is
  rewritten to the `254…` international form or rejected with 400. The prefix
  test `phone.startsWith("07" || "0")` is kept as written. The `||` yields
  `"07"`, so only a `0` followed by `7` counts as a local number. The local
  branch checks no length. Any other number must start with `254` and have
  a JavaScript `length` of exactly 12, counted in UTF-16 code units, so a
  character outside the Basic Multilingual Plane counts twice.
- **STK-push request construction.** The timestamp is the ISO-8601 text of the
  current instant with `-`, `:`, `T` and `.` removed, cut to 14 characters. The
  password is `Buffer.from(shortcode + passkey + timestamp).toString("base64")`,
  modelled in full: UTF-8 encoding plus the base 64 encoding of section 4 of
  RFC 4648, each with a decoder and a round-trip proof. The request body is
  built field for field. The clock is an input string.
- **Payment records** (`createPayment`, `updatePaymentStatus`) over a store made
  of two maps: bookings by id, and payments by transaction id. Guards run in
  source order (400, 404, 409), and every rejection leaves the store unchanged.
  A successful create inserts exactly one `"pending"` payment. An update
  rewrites only the status of one payment. Both preserve the store's
  consistency invariant.
- **Booking statistics** (`getBookingStats`): `newBookings` and the percentage
  change. `Math.round(100·n/p)` is computed exactly as `(200·n + p) / (2·p)`
  with floor division. It is characterised as the unique integer within one
  half of `100·n/p`.

Modules: `Wrappers` (Option), `Bytes` (octets), `Js` (request-body values, truthiness,
`startsWith`, `||`), `Api` (error replies with status codes and messages),
`Phone`, `Utf8`, `Base64`, `Timestamp`, `StkPush`, `Payments`, `BookingStats`.

Two behaviours of the code worth noting:

- An update of a missing payment makes the ORM's `update` throw, and the
  handler answers 500 from its `catch`. The 404 branch after the update is
  unreachable.
- A local number is not length-checked, so `"07"` becomes `"2547"`. The
  normalised number is two characters longer than the local input, not
  always 12 characters long.

## Model

| member | source | states |
|---|---|---|
| Phone.Normalize | api/controllers/payment.controller.js:35-39 | A number is accepted iff it starts with '0','7', or starts with "254" and has a JavaScript length (UTF-16 code units) of 12. A local number becomes "254" followed by all of it but the leading '0'. Any other accepted number is returned unchanged. Every rejection is the "Invalid Phone Number Format" error. |
| Phone.ValidateRequest | api/controllers/payment.controller.js:23-39 | Guards in order: a falsy phone or amount gives the "required" 400, then a non-string phone gives the "format" 400, then normalisation. Every rejection is a 400. |
| Phone.AcceptedStartsWithCountryCode | api/controllers/payment.controller.js:35-36 | Every accepted number starts with "254". A local number's result starts with "2547" and its JavaScript length is exactly two more than the input's. |
| Phone.LocalLength | api/controllers/payment.controller.js:35-36 | Replacing the leading '0' of a local number by "254" adds exactly two UTF-16 code units. |
| Phone.ZeroWithoutSevenRejected | api/controllers/payment.controller.js:35-39 | A '0' followed by any character other than '7' is always rejected. The "0" alternative of the prefix test never applies. |
| Phone.TenCharacterLocalBecomesCanonical | api/controllers/payment.controller.js:35-36 | A local `07…` number of JavaScript length 10 normalises to a canonical number: "254"-prefixed, length 12. |
| Phone.NormalizeIdempotentOnCanonical | api/controllers/payment.controller.js:35-39 | When the normalised number is canonical (254-prefixed, length 12), normalising it again changes nothing. |
| Phone.AstralCharacterCountsTwice | api/controllers/payment.controller.js:37 | A "254" number of 12 characters, one of them outside the Basic Multilingual Plane, has JavaScript length 13 and is rejected. |
| Phone.LocalBranchHasNoLengthCheck | api/controllers/payment.controller.js:35-36 | "07" is accepted as "2547". That result is not canonical, and a second normalisation rejects it. |
| Js.Truthy | api/controllers/payment.controller.js:25 | A request-body value is falsy exactly when it is `undefined`, `null`, `false`, `0` or the empty string, JavaScript's list of falsy values for JSON input. |
| Js.Or | api/controllers/payment.controller.js:35 | The JavaScript or-operator on two strings yields one of its operands: `a` when `a` is non-empty, and it is non-empty iff either operand is. |
| Js.Length | api/controllers/payment.controller.js:37 | The UTF-16 length of a string lies between its number of characters and twice that, and equals the number of characters when every character is in the Basic Multilingual Plane. |
| Js.LengthConcat | api/controllers/payment.controller.js:37 | The UTF-16 length of a concatenation is the sum of the lengths. |
| Timestamp.StripSeparators | api/controllers/payment.controller.js:45 | The result has no '-', ':', 'T' or '.', is no longer than the input, and equals the input when the input has none of them. |
| Timestamp.StripKeepsOthers | api/controllers/payment.controller.js:45 | Every character other than '-', ':', 'T' and '.' occurs in the result exactly as often as in the input. |
| Timestamp.StripConcat | api/controllers/payment.controller.js:45 | Removing the separators from a concatenation is removing them from each part: the global replace works character by character, in order. |
| Timestamp.Take14 | api/controllers/payment.controller.js:46 | The result is the first min(14, length) characters of the input. |
| Timestamp.Of | api/controllers/payment.controller.js:43-46 | The timestamp has at most 14 characters and no separators. For an instant `YYYY-MM-DDTHH:MM:SS.sssZ` it is the 14 digits `YYYYMMDDHHMMSS`. |
| Timestamp.OfIsoInstant | api/controllers/payment.controller.js:43-46 | For `YYYY-MM-DDTHH:MM:SS.sssZ`, the first 14 characters left after removing the separators are the date and time digits up to the seconds, in order. |
| Timestamp.TimestampKeepsSeconds | api/controllers/payment.controller.js:43-46 | Putting the separators back into the timestamp gives the ISO text up to the seconds. Only the fractional seconds are lost. |
| Utf8.Encode | api/controllers/payment.controller.js:47-48 | Each character takes one to four bytes, and decoding the bytes gives back the string, so `Buffer.from` loses nothing. |
| Utf8.EncodeDecode | api/controllers/payment.controller.js:47-48 | Any bytes the strict decoder accepts (no overlong forms, no surrogates) are the encoding of the string they decode to. With the previous row, each string has exactly one UTF-8 byte sequence. |
| Utf8.EncodeAscii | api/controllers/payment.controller.js:47-49 | An ASCII string encodes to one byte per character, each equal to the character's code. |
| Base64.Encode | api/controllers/payment.controller.js:47-49 | The encoding has 4·⌈n/3⌉ characters, each from the RFC 4648 alphabet or '='. |
| Base64.DecodeEncode | api/controllers/payment.controller.js:47-49 | Decoding the base 64 text of any bytes gives back those bytes. |
| Base64.EncodeDecode | api/controllers/payment.controller.js:47-49 | Any text the strict decoder accepts is the encoding of the bytes it decodes to. With the previous row, each byte string has exactly one base 64 text. |
| StkPush.Password | api/controllers/payment.controller.js:47-49 | The password decodes from base 64 to the UTF-8 bytes of shortcode ++ passkey ++ timestamp, and it is the only text that decodes to those bytes. |
| StkPush.PasswordSignsTimestamp | api/controllers/payment.controller.js:47-49 | Base 64 decoding followed by UTF-8 decoding recovers exactly shortcode ++ passkey ++ timestamp from the password. |
| StkPush.PasswordUnique | api/controllers/payment.controller.js:47-49 | Any text that base 64 and UTF-8 decode to shortcode ++ passkey ++ timestamp is the password itself. |
| StkPush.BuildRequest | api/controllers/payment.controller.js:43-63 | PartyA and PhoneNumber are the normalised phone, and PartyB is the BusinessShortCode. The Timestamp is the one signed into the Password. Amount and CallBackURL are copied. The three constant fields are set. For an ISO instant, the Timestamp is its `YYYYMMDDHHMMSS` digits. |
| StkPush.HandlePayment | api/controllers/payment.controller.js:22-63 | A missing field or a non-string phone is rejected with 400 before any request is built. A request is built only for a phone that normalisation accepts. It is the full signed request body of `BuildRequest` for that normalised phone, so the Password, shortcode, PartyB, callback URL and constant fields carry over. |
| Payments.CreatePayment | api/controllers/payment.controller.js:82-138 | Guards in order: missing field gives 400, unknown booking 404, used transaction id 409, booking already paid 409. It succeeds iff all four guards pass, and once the first three pass it answers "already paid" iff the booking has a payment. A rejection leaves the store unchanged. A success adds exactly one "pending" payment under the new transaction id, linked to the booking, and replies 201 with that booking included. The status code is 201 on success and the error's own code otherwise. |
| Payments.UpdatePaymentStatus | api/controllers/payment.controller.js:152-183 | It succeeds iff a payment with that transaction id exists. On failure it answers 500 and the store is unchanged; on success it answers 200. On success only that payment's status changes: its transaction id, amount, method and booking are kept, every other payment is unchanged, and the reply carries the updated payment. |
| Payments.CreatePreservesValid | api/controllers/payment.controller.js:95-128 | Creation keeps the store consistent: each payment is keyed by its transaction id, refers to an existing booking, and no booking has two payments. |
| Payments.UpdatePreservesValid | api/controllers/payment.controller.js:156-164 | A status update keeps the store consistent. |
| Payments.SecondCreateConflicts | api/controllers/payment.controller.js:103-110 | Repeating a successful create with the same transaction id replies 409 and adds nothing. |
| Payments.UpdateAfterCreate | api/controllers/payment.controller.js:113-164 | Updating a freshly created payment's status yields that payment with the new status and nothing else changed. |
| Payments.UpdateIdempotent | api/controllers/payment.controller.js:156-164 | Applying the same status update twice leaves the store as applying it once. |
| BookingStats.RoundHalfUp | api/controllers/booking.controller.js:100 | The result r satisfies r − ½ ≤ num/den < r + ½, which is Math.round's nearest integer with ties rounded up. |
| BookingStats.RoundHalfUpUnique | api/controllers/booking.controller.js:100 | Any integer within that half-open window of num/den equals the rounded value. |
| BookingStats.Compute | api/controllers/booking.controller.js:95-109 | count is the current count, and newBookings + previous = current. With a previous count, percentChange is the nearest integer (ties up) to 100·newBookings/previous. With no previous bookings it is 100 if any booking exists, else 0. |
| BookingStats.NonNegativeWhenPreviousIsSubset | api/controllers/booking.controller.js:80-103 | When previous ≤ current, both newBookings and percentChange are non-negative. |
| BookingStats.DoublingIsHundredPercent | api/controllers/booking.controller.js:95-100 | Doubling a positive previous count gives a 100% change. |
| BookingStats.Examples | api/controllers/booking.controller.js:95-109 | Counts 50/40 give 10 new bookings and 25%, counts 10/0 give 100%, and counts 0/0 give 0%. |

## Left out

- `getAccessToken` and the two outbound calls (payment.controller.js:4-20, 65-79) are network I/O. The model stops at the request body that would be posted. The token fetch, the gateway's reply and the 500 on a gateway failure are not modelled.
- The environment values (shortcode, passkey, callback URL) are plain strings in a `Config`. An unset variable, which JavaScript would render as the text "undefined", is not modelled.
- The clock (`new Date()`, `toISOString`, `setMonth`) is replaced by inputs: the ISO text of the current instant, and the two booking counts.
- Timestamp.OfIsoInstant: covers the `YYYY-MM-DDTHH:MM:SS.sssZ` form only. `toISOString` writes the year as `±YYYYYY` outside 0000–9999.
- Utf8.Encode: a Dafny `char` is a Unicode scalar value. The lone UTF-16 surrogates a JavaScript string may hold, which `Buffer.from` replaces with U+FFFD, are not modelled.
- Persistence is the pair of maps. The ORM's other failures are not modelled: a foreign-key violation from a concurrently deleted booking (the P2003 branch) and any other exception answered with 500 (payment.controller.js:140-148).
- Payments.CreatePayment: the "booking already has a payment" 409 assumes a unique constraint on the payment's booking. The database schema that declares it is not part of this model.
- Payments.CreatePayment: `method`, `transactionId` and `bookingId` are modelled as optional strings. A falsy value (`null`, `0`, `false`, `""`) gets the 400 of the guard at payment.controller.js:86, which the model gives for an absent or empty field. A truthy value of another JSON type (a number, an object) would pass that guard and be rejected by the ORM's validation with 500; that path is not modelled.
- Payments.CreatePayment: `parseFloat(amount)` is floating point. The stored amount is the value as sent.
- Payments.UpdatePaymentStatus: the ORM's validation of `status` against the schema's values is not modelled. A status that is not sent leaves the stored status as it was.
- The `if (!updatedPayment)` 404 branch (payment.controller.js:166-170) is unreachable, because the ORM's `update` throws when no record matches.
- BookingStats.Compute: rounds the exact quotient 100·newBookings/previous. The source rounds the double-precision value `(newBookings / previousMonthBookings) * 100`, which can differ from the exact quotient near a .5 boundary.
- Timestamp.Take14: cuts 14 characters, where `.slice(0, 14)` cuts 14 UTF-16 code units. The two agree on the ASCII text `toISOString` produces, which is the only input the handler gives it.
- Js.Truthy: numbers are modelled as reals. NaN, which is falsy, is not represented, so the falsy list in its contract leaves NaN out.
- `getAllBookings`, `getBookings`, `addBooking` and `bookingCount` (booking.controller.js:3-75) are direct ORM calls with no logic of their own.
- Logging (`console`) and the Express response objects are replaced by returned result values carrying status codes.

=== FILE: api.dfy ===
/**
 * The error responses the controllers send, with their HTTP status codes and
 * the `error` text of their JSON bodies, and the result type of every handler.
 */
module Api {

  datatype ApiError =
    | MissingPhoneOrAmount   // stk push: `phone` or `amount` falsy
    | PhoneNotString         // stk push: `phone` is not a string
    | BadPhoneFormat         // stk push: phone neither local nor 254-prefixed with 12 characters
    | MissingPaymentFields   // createPayment: one of the four fields falsy
    | BookingNotFound        // createPayment: no booking with that id
    | DuplicateTransaction   // createPayment: transactionId already used
    | BookingAlreadyPaid     // createPayment: the storage layer's unique constraint on the booking
    | UpdateFailed           // updatePaymentStatus: the storage update raised (no such payment)
  {
    /** The HTTP status code the handler answers with. */
    function Status(): nat
    {
      match this
      case MissingPhoneOrAmount => 400
      case PhoneNotString => 400
      case BadPhoneFormat => 400
      case MissingPaymentFields => 400
      case BookingNotFound => 404
      case DuplicateTransaction => 409
      case BookingAlreadyPaid => 409
      case UpdateFailed => 500
    }

    /** The `error` field of the JSON body. */
    function Message(): string
    {
      match this
      case MissingPhoneOrAmount => "Phone number and amount are required"
      case PhoneNotString => "Invalid phone number format"
      case BadPhoneFormat => "Invalid Phone Number Format"
      case MissingPaymentFields =>
        "Missing required fields. Please provide amount, method, transactionId, and bookingId."
      case BookingNotFound => "Booking not found"
      case DuplicateTransaction => "Transaction ID already exists"
      case BookingAlreadyPaid => "Unique constraint violation. This booking already has a payment."
      case UpdateFailed => "Failed to update payment."
    }
  }

  datatype Result<+T> = Ok(value: T) | Err(error: ApiError)
}

=== FILE: base64.dfy ===
/**
 * `buffer.toString("base64")`: the base 64 encoding of section 4 of RFC 4648
 * (alphabet A-Z a-z 0-9 + /, padding with '='), and a strict decoder.
 */
module Base64 {
  import opened Wrappers
  import opened Bytes

  type Sextet = i: int | 0 <= i < 64

  /** The character of a 6-bit value, in the order of Table 1 of RFC 4648. */
  function CharOf(i: Sextet): (c: char)
    ensures c != '='
  {
    if i < 26 then ('A' as int + i) as char
    else if i < 52 then ('a' as int + (i - 26)) as char
    else if i < 62 then ('0' as int + (i - 52)) as char
    else if i == 62 then '+'
    else '/'
  }

  /** The 6-bit value of an alphabet character; `None` for any other character. */
  function ValueOf(c: char): (r: Option<Sextet>)
    ensures r.Some? ==> CharOf(r.value) == c
  {
    if 'A' <= c <= 'Z' then Some(c as int - 'A' as int)
    else if 'a' <= c <= 'z' then Some(c as int - 'a' as int + 26)
    else if '0' <= c <= '9' then Some(c as int - '0' as int + 52)
    else if c == '+' then Some(62)
    else if c == '/' then Some(63)
    else None
  }

  predicate InAlphabet(c: char)
  {
    ValueOf(c).Some?
  }

  lemma ValueOfCharOf(i: Sextet)
    ensures ValueOf(CharOf(i)) == Some(i)
  {
  }

  /** A character of encoded text: an alphabet character or the pad. */
  predicate IsEncodedChar(c: char)
  {
    InAlphabet(c) || c == '='
  }

  /** Three bytes as four characters. */
  function EncodeGroup(a: Byte, b: Byte, c: Byte): (r: string)
    ensures |r| == 4 && forall i :: 0 <= i < 4 ==> InAlphabet(r[i])
  {
    ValueOfCharOf(a / 4);
    ValueOfCharOf((a % 4) * 16 + b / 16);
    ValueOfCharOf((b % 16) * 4 + c / 64);
    ValueOfCharOf(c % 64);
    [CharOf(a / 4), CharOf((a % 4) * 16 + b / 16), CharOf((b % 16) * 4 + c / 64), CharOf(c % 64)]
  }

  /** The final one or two bytes, padded to four characters. */
  function EncodeTail(bs: seq<Byte>): (r: string)
    requires 1 <= |bs| <= 2
    ensures |r| == 4 && forall i :: 0 <= i < 4 ==> IsEncodedChar(r[i])
  {
    ValueOfCharOf(bs[0] / 4);
    ValueOfCharOf((bs[0] % 4) * 16);
    ValueOfCharOf((bs[0] % 4) * 16 + (if |bs| == 2 then bs[1] / 16 else 0));
    ValueOfCharOf(if |bs| == 2 then (bs[1] % 16) * 4 else 0);
    if |bs| == 1 then
      [CharOf(bs[0] / 4), CharOf((bs[0] % 4) * 16), '=', '=']
    else
      [CharOf(bs[0] / 4), CharOf((bs[0] % 4) * 16 + bs[1] / 16), CharOf((bs[1] % 16) * 4), '=']
  }

  function Encode(bs: seq<Byte>): (r: string)
    ensures |r| == (|bs| + 2) / 3 * 4
    ensures forall i :: 0 <= i < |r| ==> IsEncodedChar(r[i])
    decreases |bs|
  {
    if |bs| == 0 then
      ""
    else if |bs| < 3 then
      EncodeTail(bs)
    else
      LengthStep(|bs|);
      EncodeGroup(bs[0], bs[1], bs[2]) + Encode(bs[3..])
  }

  /** Three more bytes make four more characters. */
  lemma LengthStep(n: int)
    requires n >= 3
    ensures 4 + (n - 3 + 2) / 3 * 4 == (n + 2) / 3 * 4
  {
  }

  /** The byte whose high six bits are `w` and low two bits the top of `x`. */
  function First(w: Sextet, x: Sextet): Byte
  {
    (w as int) * 4 + (x as int) / 16
  }

  /** The byte made of the low four bits of `x` and the top four bits of `y`. */
  function Second(x: Sextet, y: Sextet): Byte
  {
    ((x as int) % 16) * 16 + (y as int) / 4
  }

  /** The byte made of the low two bits of `y` and all six bits of `z`. */
  function Third(y: Sextet, z: Sextet): Byte
  {
    ((y as int) % 4) * 64 + (z as int)
  }

  lemma FirstOfSplit(a: Byte, b: Byte)
    ensures First(a / 4, (a % 4) * 16 + b / 16) == a
  {
  }

  lemma SecondOfSplit(a: Byte, b: Byte, c: Byte)
    ensures Second((a % 4) * 16 + b / 16, (b % 16) * 4 + c / 64) == b
  {
    assert ((a % 4) * 16 + b / 16) % 16 == b / 16;
    assert ((b % 16) * 4 + c / 64) / 4 == b % 16;
  }

  lemma ThirdOfSplit(b: Byte, c: Byte)
    ensures Third((b % 16) * 4 + c / 64, c % 64) == c
  {
  }

  /** Four alphabet characters as three bytes. */
  function DecodeGroup(s: string): Option<seq<Byte>>
    requires |s| == 4
  {
    match (ValueOf(s[0]), ValueOf(s[1]), ValueOf(s[2]), ValueOf(s[3]))
    case (Some(w), Some(x), Some(y), Some(z)) =>
      Some([First(w, x), Second(x, y), Third(y, z)])
    case _ => None
  }

  /** The last four characters, which may carry one or two '='. The bits
      that the padding leaves over must be zero (section 3.5 of RFC 4648), so
      that each byte string has exactly one encoding. */
  function DecodeLast(s: string): Option<seq<Byte>>
    requires |s| == 4
  {
    if s[2] == '=' && s[3] == '=' then
      match (ValueOf(s[0]), ValueOf(s[1]))
      case (Some(w), Some(x)) => if x % 16 == 0 then Some([First(w, x)]) else None
      case _ => None
    else if s[3] == '=' then
      match (ValueOf(s[0]), ValueOf(s[1]), ValueOf(s[2]))
      case (Some(w), Some(x), Some(y)) => if y % 4 == 0 then Some([First(w, x), Second(x, y)]) else None
      case _ => None
    else
      DecodeGroup(s)
  }

  function Decode(s: string): Option<seq<Byte>>
    decreases |s|
  {
    if |s| == 0 then
      Some([])
    else if |s| < 4 then
      None
    else if |s| == 4 then
      DecodeLast(s)
    else
      match (DecodeGroup(s[..4]), Decode(s[4..]))
      case (Some(g), Some(rest)) => Some(g + rest)
      case _ => None
  }

  lemma DecodeEncodeGroup(a: Byte, b: Byte, c: Byte)
    ensures DecodeGroup(EncodeGroup(a, b, c)) == Some([a, b, c])
    ensures DecodeLast(EncodeGroup(a, b, c)) == Some([a, b, c])
  {
    var w: Sextet, x: Sextet, y: Sextet, z: Sextet := a / 4, (a % 4) * 16 + b / 16, (b % 16) * 4 + c / 64, c % 64;
    var g := EncodeGroup(a, b, c);
    assert g == [CharOf(w), CharOf(x), CharOf(y), CharOf(z)];
    ValueOfCharOf(w);
    ValueOfCharOf(x);
    ValueOfCharOf(y);
    ValueOfCharOf(z);
    FirstOfSplit(a, b);
    SecondOfSplit(a, b, c);
    ThirdOfSplit(b, c);
    assert DecodeGroup(g) == Some([First(w, x), Second(x, y), Third(y, z)]);
    assert g[2] != '=' && g[3] != '=';
  }

  lemma DecodeEncodeTail(bs: seq<Byte>)
    requires 1 <= |bs| <= 2
    ensures DecodeLast(EncodeTail(bs)) == Some(bs)
  {
    if |bs| == 1 {
      DecodeEncodeOne(bs[0]);
      assert [bs[0]] == bs;
    } else {
      DecodeEncodeTwo(bs[0], bs[1]);
      assert [bs[0], bs[1]] == bs;
    }
  }

  /** One final byte: two characters and "==", with four zero bits left over. */
  lemma DecodeEncodeOne(a: Byte)
    ensures DecodeLast(EncodeTail([a])) == Some([a])
  {
    var x := (a % 4) * 16;
    ValueOfCharOf(a / 4);
    ValueOfCharOf(x);
    FirstOfSplit(a, 0);
    assert x % 16 == 0;
  }

  /** Two final bytes: three characters and "=", with two zero bits left over. */
  lemma DecodeEncodeTwo(a: Byte, b: Byte)
    ensures DecodeLast(EncodeTail([a, b])) == Some([a, b])
  {
    var w: Sextet, x: Sextet, y: Sextet := a / 4, (a % 4) * 16 + b / 16, (b % 16) * 4;
    var s := EncodeTail([a, b]);
    assert s == [CharOf(w), CharOf(x), CharOf(y), '='];
    ValueOfCharOf(w);
    ValueOfCharOf(x);
    ValueOfCharOf(y);
    FirstOfSplit(a, b);
    SecondOfSplit(a, b, 0);
    assert y % 4 == 0;
    assert DecodeLast(s) == Some([First(w, x), Second(x, y)]);
  }

  /** Decoding inverts encoding, so the encoded text determines the bytes. */
  lemma {:induction false} DecodeEncode(bs: seq<Byte>)
    ensures Decode(Encode(bs)) == Some(bs)
    decreases |bs|
  {
    if |bs| == 0 {
    } else if |bs| < 3 {
      DecodeEncodeTail(bs);
    } else {
      var g := EncodeGroup(bs[0], bs[1], bs[2]);
      var s := Encode(bs);
      DecodeEncodeGroup(bs[0], bs[1], bs[2]);
      if |bs| == 3 {
        assert bs[3..] == [];
        assert s == g;
        assert [bs[0], bs[1], bs[2]] == bs;
      } else {
        assert s[..4] == g;
        assert s[4..] == Encode(bs[3..]);
        DecodeEncode(bs[3..]);
        assert [bs[0], bs[1], bs[2]] + bs[3..] == bs;
      }
    }
  }

  lemma FirstParts(w: Sextet, x: Sextet)
    ensures First(w, x) / 4 == w && First(w, x) % 4 == x / 16
  {
  }

  lemma SecondParts(x: Sextet, y: Sextet)
    ensures Second(x, y) / 16 == x % 16 && Second(x, y) % 16 == y / 4
  {
  }

  lemma ThirdParts(y: Sextet, z: Sextet)
    ensures Third(y, z) / 64 == y % 4 && Third(y, z) % 64 == z
  {
  }

  /** The three bytes that four sextets decode to encode back to those sextets. */
  lemma Regroup(w: Sextet, x: Sextet, y: Sextet, z: Sextet)
    ensures EncodeGroup(First(w, x), Second(x, y), Third(y, z)) == [CharOf(w), CharOf(x), CharOf(y), CharOf(z)]
  {
    var a, b, c := First(w, x), Second(x, y), Third(y, z);
    FirstParts(w, x);
    SecondParts(x, y);
    ThirdParts(y, z);
    assert (a % 4) * 16 + b / 16 == x by {
      assert (x / 16) * 16 + x % 16 == x;
    }
    assert (b % 16) * 4 + c / 64 == y by {
      assert (y / 4) * 4 + y % 4 == y;
    }
  }

  /** Re-encoding a decoded group of four alphabet characters gives them back. */
  lemma EncodeDecodeGroup(s: string)
    requires |s| == 4 && InAlphabet(s[0]) && InAlphabet(s[1]) && InAlphabet(s[2]) && InAlphabet(s[3])
    ensures DecodeGroup(s).Some? && |DecodeGroup(s).value| == 3
    ensures var g := DecodeGroup(s).value; EncodeGroup(g[0], g[1], g[2]) == s
  {
    var w, x, y, z := ValueOf(s[0]).value, ValueOf(s[1]).value, ValueOf(s[2]).value, ValueOf(s[3]).value;
    Regroup(w, x, y, z);
  }

  /** Re-encoding the decoded last group gives it back, padding included. */
  lemma EncodeDecodeLast(s: string)
    requires |s| == 4 && DecodeLast(s).Some?
    ensures Encode(DecodeLast(s).value) == s
  {
    var w, x := ValueOf(s[0]).value, ValueOf(s[1]).value;
    FirstParts(w, x);
    if s[2] == '=' && s[3] == '=' {
      assert (x / 16) * 16 == x;
    } else if s[3] == '=' {
      var y := ValueOf(s[2]).value;
      SecondParts(x, y);
      assert (x / 16) * 16 + x % 16 == x;
      assert (y / 4) * 4 == y;
    } else {
      EncodeDecodeGroup(s);
      var g := DecodeGroup(s).value;
      assert g[3..] == [];
    }
  }

  /** Encoding inverts decoding: a text that decodes is the encoding of its
      bytes. With `DecodeEncode`, each byte string has exactly one encoding. */
  lemma {:induction false} EncodeDecode(s: string, bs: seq<Byte>)
    requires Decode(s) == Some(bs)
    ensures Encode(bs) == s
    decreases |s|
  {
    if |s| == 4 {
      EncodeDecodeLast(s);
    } else if |s| > 4 {
      var g := DecodeGroup(s[..4]).value;
      var rest := Decode(s[4..]).value;
      EncodeDecodeGroup(s[..4]);
      EncodeDecode(s[4..], rest);
      assert rest != [];
      assert bs == g + rest;
      assert bs[3..] == rest;
      assert s == s[..4] + s[4..];
    }
  }
}

=== FILE: booking_stats.dfy ===
/**
 * `getBookingStats`: the number of bookings, how many were added in the last
 * month, and the rounded percentage change. The two counts come from the
 * database and the clock and are inputs here.
 */
module BookingStats {

  /** The JSON body `{count, newBookings, percentChange}`. */
  datatype Stats = Stats(count: nat, newBookings: int, percentChange: int)

  /** `Math.round(num / den)` for a positive `den`: the nearest integer, ties
      rounded up. With `/` on a positive divisor rounding down, this is
      floor(num / den + 1/2) in integers. */
  function RoundHalfUp(num: int, den: int): (r: int)
    requires den > 0
    ensures 2 * den * r - den <= 2 * num < 2 * den * r + den
  {
    var q := (2 * num + den) / (2 * den);
    DivBounds(2 * num + den, 2 * den);
    q
  }

  /** What floor division promises, stated as two inequalities. */
  lemma DivBounds(a: int, b: int)
    requires b > 0
    ensures b * (a / b) <= a < b * (a / b) + b
  {
  }

  /** The bounds of `RoundHalfUp` pin down one integer: any other integer
      within half of `num / den` is the same number. */
  lemma {:induction false} RoundHalfUpUnique(num: int, den: int, k: int)
    requires den > 0
    requires 2 * den * k - den <= 2 * num < 2 * den * k + den
    ensures k == RoundHalfUp(num, den)
  {
    var r := RoundHalfUp(num, den);
    // both 2*den*k and 2*den*r lie within den of 2*num, so they differ by less than 2*den
    assert 2 * den * (k - r) < 2 * den;
    assert 2 * den * (r - k) < 2 * den;
    if k > r {
      MultiplyAtLeastOne(2 * den, k - r);
    } else if k < r {
      MultiplyAtLeastOne(2 * den, r - k);
    }
  }

  lemma MultiplyAtLeastOne(a: int, b: int)
    requires a > 0 && b >= 1
    ensures a * b >= a
  {
  }

  /** The statistics for `currentCount` bookings of which
      `previousMonthBookings` were made before the last month. */
  function Compute(currentCount: nat, previousMonthBookings: nat): (r: Stats)
    ensures r.count == currentCount
    ensures r.newBookings + previousMonthBookings == currentCount
    ensures previousMonthBookings > 0 ==>
              2 * previousMonthBookings * r.percentChange - previousMonthBookings
                <= 200 * r.newBookings
                < 2 * previousMonthBookings * r.percentChange + previousMonthBookings
    ensures previousMonthBookings == 0 && currentCount > 0 ==> r.percentChange == 100
    ensures previousMonthBookings == 0 && currentCount == 0 ==> r.percentChange == 0
  {
    var newBookings := currentCount - previousMonthBookings;
    var percentChange :=
      if previousMonthBookings > 0 then RoundHalfUp(100 * newBookings, previousMonthBookings)
      else if currentCount > 0 then 100
      else 0;
    Stats(currentCount, newBookings, percentChange)
  }

  /** When the earlier bookings are among all bookings, nothing is negative. */
  lemma NonNegativeWhenPreviousIsSubset(currentCount: nat, previousMonthBookings: nat)
    requires previousMonthBookings <= currentCount
    ensures Compute(currentCount, previousMonthBookings).newBookings >= 0
    ensures Compute(currentCount, previousMonthBookings).percentChange >= 0
  {
  }

  /** A month that doubles the bookings is a 100% change, whatever the count. */
  lemma {:induction false} DoublingIsHundredPercent(previousMonthBookings: nat)
    requires previousMonthBookings > 0
    ensures Compute(2 * previousMonthBookings, previousMonthBookings).percentChange == 100
  {
    var p := previousMonthBookings;
    RoundHalfUpUnique(100 * p, p, 100);
  }

  lemma Examples()
    ensures Compute(50, 40) == Stats(50, 10, 25)
    ensures Compute(10, 0) == Stats(10, 10, 100)
    ensures Compute(0, 0) == Stats(0, 0, 0)
  {
  }
}

=== FILE: bytes.dfy ===
/** Octets, as `Buffer` holds them. */
module Bytes {
  type Byte = b: int | 0 <= b < 256
}

=== FILE: js.dfy ===
/**
 * The JavaScript values the Express handlers read out of `req.body`, and the
 * few JavaScript operators whose semantics the handlers depend on.
 */
module Js {

  /** A value parsed from a JSON request body; a field that is not sent is `Undefined`.
      Arrays and objects are not distinguished: every such value is truthy. */
  datatype Value =
    | Undefined
    | Null
    | Bool(b: bool)
    | Number(n: real)
    | Str(s: string)
    | Composite

  /** JavaScript truthiness, the test behind `!x` in the handlers' guards. */
  predicate Truthy(v: Value)
    ensures !Truthy(v) <==> v in {Undefined, Null, Bool(false), Number(0.0), Str("")}
  {
    match v
    case Undefined => false
    case Null => false
    case Bool(b) => b
    case Number(n) => n != 0.0
    case Str(s) => |s| > 0
    case Composite => true
  }

  /** `s.startsWith(prefix)` */
  predicate StartsWith(s: string, prefix: string)
  {
    |prefix| <= |s| && s[..|prefix|] == prefix
  }

  /** `s.length`: JavaScript strings count UTF-16 code units, so a code point
      above U+FFFF counts twice. */
  function Length(s: string): (n: nat)
    ensures |s| <= n <= 2 * |s|
    ensures (forall i :: 0 <= i < |s| ==> (s[i] as int) < 0x1_0000) ==> n == |s|
  {
    if |s| == 0 then 0 else (if (s[0] as int) < 0x1_0000 then 1 else 2) + Length(s[1..])
  }

  /** The length of a concatenation is the sum of the lengths. */
  lemma {:induction false} LengthConcat(a: string, b: string)
    ensures Length(a + b) == Length(a) + Length(b)
  {
    if |a| == 0 {
      assert a + b == b;
    } else {
      assert (a + b)[0] == a[0];
      assert (a + b)[1..] == a[1..] + b;
      LengthConcat(a[1..], b);
    }
  }

  /** JavaScript `a || b` on two strings: `a` when it is truthy (non-empty), else `b`. */
  function Or(a: string, b: string): (r: string)
    ensures r == a || r == b
    ensures |a| > 0 ==> r == a
    ensures |r| > 0 <==> |a| > 0 || |b| > 0
  {
    if |a| > 0 then a else b
  }
}

=== FILE: payments.dfy ===
/**
 * `createPayment` and `updatePaymentStatus` over an abstract store: the
 * bookings and the payments of the database as two maps, payments keyed by
 * their transaction id. Each handler returns the new store and its reply.
 */
module Payments {
  import opened Js
  import opened Wrappers
  import opened Api

  type BookingId = string
  type TransactionId = string

  datatype Booking = Booking(
    id: BookingId,
    startDate: string,
    endDate: string,
    status: string,
    kind: string,
    postId: string,
    userId: string,
    checkoutId: string,
    createdAt: string)

  datatype Payment = Payment(
    amount: Value,
    paymentMethod: string,   // the `method` field
    transactionId: TransactionId,
    status: string,
    bookingId: BookingId)

  datatype Store = Store(bookings: map<BookingId, Booking>, payments: map<TransactionId, Payment>)

  /** The store after a handler, the handler's reply, and the HTTP status
      code it answers with. */
  datatype Outcome<+T> = Outcome(store: Store, reply: Result<T>, status: nat)

  /** A rejection: the store as it was, and the error's own status code. */
  function Rejected<T>(st: Store, e: ApiError): Outcome<T>
  {
    Outcome(st, Err(e), e.Status())
  }

  const PendingStatus: string := "pending"
  const CreatedStatus: nat := 201
  const UpdatedStatus: nat := 200

  /** A text field of a request body; `None` when it was not sent. */
  predicate Present(field: Option<string>)
  {
    field.Some? && |field.value| > 0
  }

  datatype CreateRequest = CreateRequest(
    amount: Value,
    paymentMethod: Option<string>,   // the `method` field
    transactionId: Option<string>,
    bookingId: Option<string>)

  /** The 201 body: the new payment with its booking included. */
  datatype Created = Created(payment: Payment, booking: Booking)

  datatype UpdateRequest = UpdateRequest(status: Option<string>, transactionId: Option<string>)

  /** The 200 envelope `{success, message, updatedPayment}`. */
  datatype Updated = Updated(success: bool, message: string, updatedPayment: Payment)

  /** The first guard of `createPayment`: all four fields truthy. */
  predicate AllPresent(req: CreateRequest)
  {
    Truthy(req.amount) && Present(req.paymentMethod) && Present(req.transactionId) && Present(req.bookingId)
  }

  /** Whether some payment already refers to the booking. */
  predicate HasPaymentFor(st: Store, booking: BookingId)
  {
    exists t | t in st.payments :: st.payments[t].bookingId == booking
  }

  /** The consistency the database keeps: every payment is stored under its
      own transaction id, refers to an existing booking, and no booking has
      two payments. */
  ghost predicate Valid(st: Store)
  {
    && (forall t :: t in st.payments ==> st.payments[t].transactionId == t)
    && (forall t :: t in st.payments ==> st.payments[t].bookingId in st.bookings)
    && (forall t, u ::
          t in st.payments && u in st.payments && st.payments[t].bookingId == st.payments[u].bookingId
          ==> t == u)
  }

  /** `createPayment`: guards in order (missing field 400, unknown booking 404,
      used transaction id 409, booking already paid 409), then one insertion
      with status "pending". */
  function CreatePayment(st: Store, req: CreateRequest): (r: Outcome<Created>)
    ensures r.reply.Err? ==> r.store == st
    ensures !AllPresent(req) ==> r.reply == Err(MissingPaymentFields)
    ensures AllPresent(req) && req.bookingId.value !in st.bookings
            ==> r.reply == Err(BookingNotFound)
    ensures AllPresent(req) && req.bookingId.value in st.bookings
            && req.transactionId.value in st.payments
            ==> r.reply == Err(DuplicateTransaction)
    ensures AllPresent(req) && req.bookingId.value in st.bookings
            && req.transactionId.value !in st.payments
            ==> (r.reply == Err(BookingAlreadyPaid) <==> HasPaymentFor(st, req.bookingId.value))
    ensures r.reply.Ok? <==>
              && AllPresent(req)
              && req.bookingId.value in st.bookings
              && req.transactionId.value !in st.payments
              && !HasPaymentFor(st, req.bookingId.value)
    ensures r.reply.Ok? ==>
              && req.transactionId.Some? && req.bookingId.Some? && req.paymentMethod.Some?
              && var tid := req.transactionId.value;
                 var p := Payment(req.amount, req.paymentMethod.value, tid, "pending", req.bookingId.value);
                 && tid !in st.payments
                 && req.bookingId.value in st.bookings
                 && r.store.bookings == st.bookings
                 && r.store.payments == st.payments[tid := p]
                 && |r.store.payments| == |st.payments| + 1
                 && r.reply.value == Created(p, st.bookings[req.bookingId.value])
    ensures r.status == if r.reply.Ok? then 201 else r.reply.error.Status()
    ensures r.status in {201, 400, 404, 409}
  {
    if !AllPresent(req) then
      Rejected(st, MissingPaymentFields)
    else
      var bid := req.bookingId.value;
      var tid := req.transactionId.value;
      if bid !in st.bookings then
        Rejected(st, BookingNotFound)
      else if tid in st.payments then
        Rejected(st, DuplicateTransaction)
      else if HasPaymentFor(st, bid) then
        Rejected(st, BookingAlreadyPaid)
      else
        var p := Payment(req.amount, req.paymentMethod.value, tid, PendingStatus, bid);
        Outcome(Store(st.bookings, st.payments[tid := p]), Ok(Created(p, st.bookings[bid])), CreatedStatus)
  }

  /** `updatePaymentStatus`: rewrites the status of the payment stored under
      the transaction id (a status that was not sent leaves it as it was, as
      the storage layer ignores undefined fields); with no such payment the
      update raises and the handler answers 500. */
  function UpdatePaymentStatus(st: Store, req: UpdateRequest): (r: Outcome<Updated>)
    ensures r.reply.Ok? <==> req.transactionId.Some? && req.transactionId.value in st.payments
    ensures r.reply.Err? ==> r.store == st && r.reply.error == UpdateFailed
    ensures r.reply.Ok? ==>
              var tid := req.transactionId.value;
              var before := st.payments[tid];
              && r.store.bookings == st.bookings
              && r.store.payments.Keys == st.payments.Keys
              && (forall t :: t in st.payments && t != tid ==> r.store.payments[t] == st.payments[t])
              && r.store.payments[tid].transactionId == tid
              && r.store.payments[tid].amount == before.amount
              && r.store.payments[tid].paymentMethod == before.paymentMethod
              && r.store.payments[tid].bookingId == before.bookingId
              && r.store.payments[tid].status == (if req.status.Some? then req.status.value else before.status)
              && r.reply.value == Updated(true, "Payment status updated.", r.store.payments[tid])
    ensures r.status == if r.reply.Ok? then 200 else 500
  {
    if req.transactionId.None? || req.transactionId.value !in st.payments then
      Rejected(st, UpdateFailed)
    else
      var tid := req.transactionId.value;
      var current := st.payments[tid];
      var status := if req.status.Some? then req.status.value else current.status;
      var updated := current.(status := status, transactionId := tid);
      Outcome(Store(st.bookings, st.payments[tid := updated]), Ok(Updated(true, "Payment status updated.", updated)), UpdatedStatus)
  }

  /** Creation keeps the store consistent. */
  lemma CreatePreservesValid(st: Store, req: CreateRequest)
    requires Valid(st)
    ensures Valid(CreatePayment(st, req).store)
  {
  }

  /** A status update keeps the store consistent. */
  lemma UpdatePreservesValid(st: Store, req: UpdateRequest)
    requires Valid(st)
    ensures Valid(UpdatePaymentStatus(st, req).store)
  {
  }

  /** Creating twice with the same transaction id: the second attempt is a
      409 and adds nothing. */
  lemma SecondCreateConflicts(st: Store, req: CreateRequest)
    requires CreatePayment(st, req).reply.Ok?
    ensures var st1 := CreatePayment(st, req).store;
            CreatePayment(st1, req) == Outcome(st1, Err(DuplicateTransaction), 409)
  {
  }

  /** The status of a freshly created payment can be rewritten, and nothing
      else about it changes. */
  lemma UpdateAfterCreate(st: Store, req: CreateRequest, status: string)
    requires CreatePayment(st, req).reply.Ok?
    ensures var c := CreatePayment(st, req);
            var u := UpdatePaymentStatus(c.store, UpdateRequest(Some(status), req.transactionId));
            && u.reply.Ok?
            && u.store.payments == c.store.payments[req.transactionId.value :=
                 c.reply.value.payment.(status := status)]
  {
  }

  /** Applying the same status update twice is applying it once. */
  lemma UpdateIdempotent(st: Store, req: UpdateRequest)
    ensures var once := UpdatePaymentStatus(st, req).store;
            UpdatePaymentStatus(once, req).store == once
  {
  }
}

=== FILE: phone.dfy ===
/**
 * Input guards of the `payment` (M-Pesa STK push) handler: presence of
 * `phone` and `amount`, the type of `phone`, and the normalisation of the
 * phone number to the 254-prefixed international form.
 */
module Phone {
  import opened Js
  import opened Api

  /** The prefix the handler tests with `startsWith("07" || "0")`; the `||` is
      evaluated first and yields "07", so the "0" alternative never applies. */
  const LocalPrefix: string := Or("07", "0")

  const CountryCode: string := "254"

  const CanonicalLength: nat := 12

  /** A number already in international form, as the second branch accepts it;
      the length is JavaScript's `length`, in UTF-16 code units. */
  predicate IsCanonical(p: string)
  {
    StartsWith(p, CountryCode) && Length(p) == CanonicalLength
  }

  /** The local-number test, stated on characters: a '0' followed by a '7'. */
  predicate IsLocal(p: string)
  {
    |p| >= 2 && p[0] == '0' && p[1] == '7'
  }

  /** Rewrites a local number `07…` to `2547…` (no length check), keeps a
      12-character `254…` number, and rejects everything else. */
  function Normalize(phone: string): (r: Result<string>)
    ensures r.Ok? <==> IsLocal(phone) || (Length(phone) == 12 && |phone| >= 3 && phone[..3] == "254")
    ensures IsLocal(phone) ==> r.Ok? && r.value == ['2', '5', '4'] + phone[1..]
    ensures !IsLocal(phone) && r.Ok? ==> r.value == phone
    ensures r.Err? ==> r.error == BadPhoneFormat
  {
    if StartsWith(phone, LocalPrefix) then
      Ok(CountryCode + phone[1..])
    else if !StartsWith(phone, CountryCode) || Length(phone) != CanonicalLength then
      Err(BadPhoneFormat)
    else
      Ok(phone)
  }

  /** The guards of the handler, in order, before any outbound call:
      presence (truthiness) of both fields, then the type of `phone`,
      then normalisation. */
  function ValidateRequest(phone: Value, amount: Value): (r: Result<string>)
    ensures !Truthy(phone) || !Truthy(amount) ==> r == Err(MissingPhoneOrAmount)
    ensures Truthy(phone) && Truthy(amount) && !phone.Str? ==> r == Err(PhoneNotString)
    ensures Truthy(phone) && Truthy(amount) && phone.Str? ==> r == Normalize(phone.s)
    ensures r.Err? ==> r.error.Status() == 400
  {
    if !Truthy(phone) || !Truthy(amount) then
      Err(MissingPhoneOrAmount)
    else if !phone.Str? then
      Err(PhoneNotString)
    else
      Normalize(phone.s)
  }

  /** Every accepted number carries the country code; a local number loses
      its leading '0' and gains "254", so it grows by two characters (and two
      code units) and starts with "2547". */
  lemma {:induction false} AcceptedStartsWithCountryCode(phone: string)
    requires Normalize(phone).Ok?
    ensures StartsWith(Normalize(phone).value, "254")
    ensures IsLocal(phone) ==>
              && StartsWith(Normalize(phone).value, "2547")
              && |Normalize(phone).value| == |phone| + 2
              && Length(Normalize(phone).value) == Length(phone) + 2
  {
    if IsLocal(phone) {
      LocalLength(phone);
    }
  }

  /** In code units: dropping the '0' and prepending "254" adds two. */
  lemma {:induction false} LocalLength(phone: string)
    requires IsLocal(phone)
    ensures Length(CountryCode + phone[1..]) == Length(phone) + 2
  {
    LengthConcat(CountryCode, phone[1..]);
    assert Length(CountryCode) == 3;
    assert Length(phone) == 1 + Length(phone[1..]);
  }

  /** A '0' followed by anything but '7' is never accepted: the "0"
      alternative of the prefix test is dead. */
  lemma ZeroWithoutSevenRejected(phone: string)
    requires |phone| >= 2 && phone[0] == '0' && phone[1] != '7'
    ensures Normalize(phone) == Err(BadPhoneFormat)
  {
  }

  /** A ten-character local number `07XXXXXXXX` becomes a canonical number. */
  lemma {:induction false} TenCharacterLocalBecomesCanonical(phone: string)
    requires IsLocal(phone) && Length(phone) == 10
    ensures IsCanonical(Normalize(phone).value)
  {
    LocalLength(phone);
  }

  /** Canonical numbers are fixed points, so normalising twice is normalising
      once whenever the first result is canonical. */
  lemma NormalizeIdempotentOnCanonical(phone: string)
    requires Normalize(phone).Ok? && IsCanonical(Normalize(phone).value)
    ensures Normalize(Normalize(phone).value) == Normalize(phone)
  {
  }

  /** A "254" number of twelve characters, one of which (U+1F600) lies
      above U+FFFF. */
  const AstralNumber: string := "2541234567" + "\U{1F600}8"

  /** The length test counts UTF-16 code units: the twelve characters of
      `AstralNumber` make thirteen units, and the number is rejected. */
  lemma AstralCharacterCountsTwice()
    ensures |AstralNumber| == 12
    ensures Length(AstralNumber) == 13
    ensures Normalize(AstralNumber) == Err(BadPhoneFormat)
  {
    AstralLength();
  }

  lemma AstralLength()
    ensures Length(AstralNumber) == 13
  {
    var digits := "2541234567";
    assert forall i :: 0 <= i < |digits| ==> (digits[i] as int) < 0x1_0000;
    PairLength();
    LengthConcat(digits, "\U{1F600}8");
  }

  lemma PairLength()
    ensures Length("\U{1F600}8") == 3
  {
    var b := "\U{1F600}8";
    assert b[1..] == "8";
    assert b[1..][1..] == "";
  }

  /** The local branch has no length check: "07" alone is accepted as "2547",
      which is not canonical and which a second normalisation rejects. */
  lemma LocalBranchHasNoLengthCheck()
    ensures Normalize("07") == Ok("2547")
    ensures !IsCanonical("2547")
    ensures Normalize("2547").Err?
  {
    assert LocalPrefix == "07";
    assert IsLocal("07");
    assert ['2', '5', '4'] + "07"[1..] == "2547";
  }
}

=== FILE: stk_push.dfy ===
/**
 * The `payment` handler: after its input guards it signs and assembles the
 * body of an M-Pesa STK-push request. Fetching the access token and posting
 * the request are network calls and are not modelled; the model returns the
 * body that would be posted.
 */
module StkPush {
  import opened Wrappers
  import opened Js
  import opened Api
  import Phone
  import Utf8
  import Base64
  import Timestamp

  /** The values the handler reads from the process environment. */
  datatype Config = Config(businessShortCode: string, passkey: string, callbackUrl: string)

  /** The JSON body of the STK-push request, field for field. */
  datatype StkRequest = StkRequest(
    businessShortCode: string,
    password: string,
    timestamp: string,
    transactionType: string,
    amount: Value,
    partyA: string,
    partyB: string,
    phoneNumber: string,
    callBackUrl: string,
    accountReference: string,
    transactionDesc: string)

  const TransactionType: string := "CustomerPayBillOnline"
  const AccountReference: string := "E-Housing"
  const TransactionDesc: string := "E-Housing Payment"

  /** `Buffer.from(shortcode + passkey + timestamp).toString("base64")`. */
  function Password(cfg: Config, timestamp: string): (r: string)
    ensures Base64.Decode(r) == Some(Utf8.Encode(cfg.businessShortCode + cfg.passkey + timestamp))
    ensures forall s :: Base64.Decode(s) == Base64.Decode(r) ==> s == r
  {
    var bytes := Utf8.Encode(cfg.businessShortCode + cfg.passkey + timestamp);
    Base64.DecodeEncode(bytes);
    assert forall s :: Base64.Decode(s) == Some(bytes) ==> s == Base64.Encode(bytes) by {
      forall s | Base64.Decode(s) == Some(bytes)
        ensures s == Base64.Encode(bytes)
      {
        Base64.EncodeDecode(s, bytes);
      }
    }
    Base64.Encode(bytes)
  }

  /** Recovers the signed text from a password. */
  function PasswordText(password: string): Option<string>
  {
    match Base64.Decode(password)
    case None => None
    case Some(bytes) => Utf8.Decode(bytes)
  }

  /** The password is a reversible encoding of exactly the shortcode, the
      passkey and the timestamp, in that order. */
  lemma {:induction false} PasswordSignsTimestamp(cfg: Config, timestamp: string)
    ensures PasswordText(Password(cfg, timestamp)) == Some(cfg.businessShortCode + cfg.passkey + timestamp)
  {
  }

  /** The password is the only text that carries the shortcode, the passkey
      and the timestamp: any text that decodes to them is the password. */
  lemma PasswordUnique(cfg: Config, timestamp: string, text: string)
    requires PasswordText(text) == Some(cfg.businessShortCode + cfg.passkey + timestamp)
    ensures text == Password(cfg, timestamp)
  {
    var bytes := Base64.Decode(text).value;
    Utf8.EncodeDecode(bytes, cfg.businessShortCode + cfg.passkey + timestamp);
    Base64.EncodeDecode(text, bytes);
  }

  /** The request body for a normalised phone, taking the current instant as
      its ISO-8601 text `now`. */
  function BuildRequest(cfg: Config, phone: string, amount: Value, now: string): (r: StkRequest)
    ensures r.partyA == phone && r.phoneNumber == phone
    ensures r.businessShortCode == cfg.businessShortCode && r.partyB == cfg.businessShortCode
    ensures r.timestamp == Timestamp.Of(now)
    ensures PasswordText(r.password) == Some(cfg.businessShortCode + cfg.passkey + r.timestamp)
    ensures r.amount == amount && r.callBackUrl == cfg.callbackUrl
    ensures r.transactionType == "CustomerPayBillOnline"
    ensures r.accountReference == "E-Housing" && r.transactionDesc == "E-Housing Payment"
    ensures Timestamp.IsIsoInstant(now) ==>
              r.timestamp == Timestamp.SecondsDigits(now) && |r.timestamp| == 14
              && Timestamp.AllDigits(r.timestamp)
  {
    var timestamp := Timestamp.Of(now);
    PasswordSignsTimestamp(cfg, timestamp);
    StkRequest(
      businessShortCode := cfg.businessShortCode,
      password := Password(cfg, timestamp),
      timestamp := timestamp,
      transactionType := TransactionType,
      amount := amount,
      partyA := phone,
      partyB := cfg.businessShortCode,
      phoneNumber := phone,
      callBackUrl := cfg.callbackUrl,
      accountReference := AccountReference,
      transactionDesc := TransactionDesc)
  }

  /** The `payment` handler up to the outbound call: the guards reject with 400
      before anything is built; otherwise the request carries the normalised
      phone. */
  function HandlePayment(cfg: Config, phone: Value, amount: Value, now: string): (r: Result<StkRequest>)
    ensures !Truthy(phone) || !Truthy(amount) ==> r == Err(MissingPhoneOrAmount)
    ensures Truthy(phone) && Truthy(amount) && !phone.Str? ==> r == Err(PhoneNotString)
    ensures r.Err? ==> r.error.Status() == 400
    ensures r.Ok? ==>
              && phone.Str? && Truthy(amount)
              && Phone.Normalize(phone.s) == Ok(r.value.partyA)
              && r.value.phoneNumber == r.value.partyA
              && r.value.amount == amount
              && r.value.timestamp == Timestamp.Of(now)
              && r.value == BuildRequest(cfg, r.value.partyA, amount, now)
    ensures Truthy(phone) && Truthy(amount) && phone.Str? ==>
              (r.Ok? <==> Phone.Normalize(phone.s).Ok?)
  {
    match Phone.ValidateRequest(phone, amount)
    case Err(e) => Err(e)
    case Ok(p) => Ok(BuildRequest(cfg, p, amount, now))
  }
}

=== FILE: timestamp.dfy ===
/**
 * The STK-push timestamp: the ISO-8601 text of the current instant with the
 * characters `-`, `:`, `T` and `.` removed, cut to its first 14 characters.
 * The clock is not modelled: the ISO text is an input.
 */
module Timestamp {

  /** The characters of the class `[-:T.]` in the replace pattern. */
  predicate IsSeparator(c: char)
  {
    c == '-' || c == ':' || c == 'T' || c == '.'
  }

  predicate IsDigit(c: char)
  {
    '0' <= c <= '9'
  }

  /** Every character other than a separator occurs in `r` as often as in `s`. */
  ghost predicate KeepsOthers(s: string, r: string)
  {
    forall c :: !IsSeparator(c) ==> multiset(r)[c] == multiset(s)[c]
  }

  /** `replace(/[-:T.]/g, "")`: keeps every other character, in order. */
  function StripSeparators(s: string): (r: string)
    ensures |r| <= |s|
    ensures forall i :: 0 <= i < |r| ==> !IsSeparator(r[i])
    ensures (forall i :: 0 <= i < |s| ==> !IsSeparator(s[i])) ==> r == s
  {
    if |s| == 0 then
      []
    else
      var rest := StripSeparators(s[1..]);
      assert s == [s[0]] + s[1..];
      if IsSeparator(s[0]) then rest else [s[0]] + rest
  }

  /** The removal keeps every other character: each occurs in the result as
      often as in the input. */
  lemma {:induction false} StripKeepsOthers(s: string)
    ensures KeepsOthers(s, StripSeparators(s))
  {
    if |s| > 0 {
      StripKeepsOthers(s[1..]);
      assert s == [s[0]] + s[1..];
      assert multiset(s) == multiset{s[0]} + multiset(s[1..]);
    }
  }

  /** The removal works character by character, so it keeps the order of the
      remaining characters: it distributes over concatenation. */
  lemma {:induction false} StripConcat(a: string, b: string)
    ensures StripSeparators(a + b) == StripSeparators(a) + StripSeparators(b)
  {
    if |a| == 0 {
      assert a + b == b;
    } else {
      assert (a + b)[0] == a[0];
      assert (a + b)[1..] == a[1..] + b;
      StripConcat(a[1..], b);
    }
  }

  /** `.slice(0, 14)`, which tolerates a shorter string. */
  function Take14(s: string): (r: string)
    ensures |r| == if |s| < 14 then |s| else 14
    ensures forall i :: 0 <= i < |r| ==> r[i] == s[i]
  {
    if |s| < 14 then s else s[..14]
  }

  /** The timestamp of the instant whose ISO-8601 text is `iso`. */
  function Of(iso: string): (r: string)
    ensures |r| <= 14
    ensures forall i :: 0 <= i < |r| ==> !IsSeparator(r[i])
    ensures IsIsoInstant(iso) ==> r == SecondsDigits(iso) && |r| == 14 && AllDigits(r)
  {
    var r := Take14(StripSeparators(iso));
    assert IsIsoInstant(iso) ==> r == SecondsDigits(iso) && |r| == 14 && AllDigits(r) by {
      if IsIsoInstant(iso) {
        OfIsoInstant(iso);
      }
    }
    r
  }

  predicate DigitsBetween(s: string, i: nat, j: nat)
    requires i <= j <= |s|
  {
    forall k :: i <= k < j ==> IsDigit(s[k])
  }

  predicate AllDigits(s: string)
  {
    forall k :: 0 <= k < |s| ==> IsDigit(s[k])
  }

  /** The text `Date.prototype.toISOString` produces for years 0000 to 9999:
      `YYYY-MM-DDTHH:MM:SS.sssZ`. */
  predicate IsIsoInstant(s: string)
  {
    && |s| == 24
    && DigitsBetween(s, 0, 4) && s[4] == '-'
    && DigitsBetween(s, 5, 7) && s[7] == '-'
    && DigitsBetween(s, 8, 10) && s[10] == 'T'
    && DigitsBetween(s, 11, 13) && s[13] == ':'
    && DigitsBetween(s, 14, 16) && s[16] == ':'
    && DigitsBetween(s, 17, 19) && s[19] == '.'
    && DigitsBetween(s, 20, 23) && s[23] == 'Z'
  }

  /** A run of kept characters starting at `i` survives the removal intact. */
  lemma KeepRun(s: string, i: nat, j: nat)
    requires i <= j <= |s|
    requires forall k :: i <= k < j ==> !IsSeparator(s[k])
    ensures StripSeparators(s[i..]) == s[i..j] + StripSeparators(s[j..])
  {
    var run := s[i..j];
    assert forall k :: 0 <= k < |run| ==> !IsSeparator(run[k]) by {
      forall k | 0 <= k < |run|
        ensures !IsSeparator(run[k])
      {
        assert run[k] == s[i + k];
      }
    }
    assert run + s[j..] == s[i..];
    StripConcat(run, s[j..]);
  }

  /** A separator at `i` disappears. */
  lemma DropSeparator(s: string, i: nat)
    requires i < |s| && IsSeparator(s[i])
    ensures StripSeparators(s[i..]) == StripSeparators(s[i + 1..])
  {
    assert s[i..][1..] == s[i + 1..];
  }

  /** The digits of the date and the time of day, up to the seconds. */
  function SecondsDigits(iso: string): string
    requires |iso| >= 19
  {
    iso[0..4] + iso[5..7] + iso[8..10] + iso[11..13] + iso[14..16] + iso[17..19]
  }

  /** The timestamp of an ISO instant is the 14 digits `YYYYMMDDHHMMSS`. */
  lemma {:induction false} OfIsoInstant(iso: string)
    requires IsIsoInstant(iso)
    ensures Take14(StripSeparators(iso)) == SecondsDigits(iso)
    ensures |SecondsDigits(iso)| == 14
    ensures AllDigits(SecondsDigits(iso))
  {
    var digits := SecondsDigits(iso);
    StripIsoInstant(iso);
    assert (digits + iso[20..24])[..14] == digits;
    SecondsDigitsAreDigits(iso);
  }

  /** Removing the separators leaves the seconds digits followed by `sssZ`. */
  lemma {:induction false} StripIsoInstant(iso: string)
    requires IsIsoInstant(iso)
    ensures StripSeparators(iso) == SecondsDigits(iso) + iso[20..24]
  {
    StripDate(iso);
    StripTime(iso);
  }

  /** `YYYY-MM-DDT` leaves `YYYYMMDD`. */
  lemma StripDate(iso: string)
    requires IsIsoInstant(iso)
    ensures StripSeparators(iso) == iso[0..4] + iso[5..7] + iso[8..10] + StripSeparators(iso[11..])
  {
    var s2 := StripSeparators(iso[8..]);
    var s1 := StripSeparators(iso[5..]);
    assert s2 == iso[8..10] + StripSeparators(iso[11..]) by { KeepThenDrop(iso, 8, 10); }
    assert s1 == iso[5..7] + s2 by { KeepThenDrop(iso, 5, 7); }
    assert StripSeparators(iso) == iso[0..4] + s1 by {
      KeepThenDrop(iso, 0, 4);
      assert iso[0..] == iso;
    }
  }

  /** `HH:MM:SS.sssZ` leaves `HHMMSSsssZ`. */
  lemma StripTime(iso: string)
    requires IsIsoInstant(iso)
    ensures StripSeparators(iso[11..]) == iso[11..13] + iso[14..16] + iso[17..19] + iso[20..24]
  {
    var s5 := StripSeparators(iso[17..]);
    var s4 := StripSeparators(iso[14..]);
    StripSeconds(iso);
    assert s4 == iso[14..16] + s5 by { KeepThenDrop(iso, 14, 16); }
    assert StripSeparators(iso[11..]) == iso[11..13] + s4 by { KeepThenDrop(iso, 11, 13); }
  }

  /** `SS.sssZ` leaves `SSsssZ`. */
  lemma StripSeconds(iso: string)
    requires IsIsoInstant(iso)
    ensures StripSeparators(iso[17..]) == iso[17..19] + iso[20..24]
  {
    var fraction := StripSeparators(iso[20..]);
    KeepThenDrop(iso, 17, 19);
    assert fraction == iso[20..24] by {
      assert forall k :: 20 <= k < 24 ==> !IsSeparator(iso[k]);
      KeepRun(iso, 20, 24);
      assert iso[24..] == [];
    }
  }

  /** A run of digits and the separator after it: the digits stay, the
      separator goes. */
  lemma KeepThenDrop(s: string, i: nat, j: nat)
    requires i <= j < |s| && DigitsBetween(s, i, j) && IsSeparator(s[j])
    ensures StripSeparators(s[i..]) == s[i..j] + StripSeparators(s[j + 1..])
  {
    KeepRun(s, i, j);
    DropSeparator(s, j);
  }

  lemma {:induction false} SecondsDigitsAreDigits(iso: string)
    requires IsIsoInstant(iso)
    ensures |SecondsDigits(iso)| == 14 && AllDigits(SecondsDigits(iso))
  {
    DigitsOfSlice(iso, 0, 4);
    DigitsOfSlice(iso, 5, 7);
    DigitsOfSlice(iso, 8, 10);
    DigitsOfSlice(iso, 11, 13);
    DigitsOfSlice(iso, 14, 16);
    DigitsOfSlice(iso, 17, 19);
    DigitsOfConcat(iso[0..4], iso[5..7]);
    DigitsOfConcat(iso[0..4] + iso[5..7], iso[8..10]);
    DigitsOfConcat(iso[0..4] + iso[5..7] + iso[8..10], iso[11..13]);
    DigitsOfConcat(iso[0..4] + iso[5..7] + iso[8..10] + iso[11..13], iso[14..16]);
    DigitsOfConcat(iso[0..4] + iso[5..7] + iso[8..10] + iso[11..13] + iso[14..16], iso[17..19]);
  }

  lemma DigitsOfSlice(s: string, i: nat, j: nat)
    requires i <= j <= |s| && DigitsBetween(s, i, j)
    ensures AllDigits(s[i..j])
  {
  }

  lemma DigitsOfConcat(a: string, b: string)
    requires AllDigits(a) && AllDigits(b)
    ensures AllDigits(a + b)
  {
  }

  /** Inverse of the timestamp at seconds precision: the ISO text up to the
      seconds, rebuilt from `YYYYMMDDHHMMSS`. */
  function ToIsoSeconds(ts: string): (r: string)
    requires |ts| == 14
    ensures |r| == 19
  {
    ts[0..4] + "-" + ts[4..6] + "-" + ts[6..8] + "T" + ts[8..10] + ":" + ts[10..12] + ":" + ts[12..14]
  }

  /** The timestamp loses only the fractional seconds: from it the instant is
      recovered to the second. */
  lemma {:induction false} TimestampKeepsSeconds(iso: string)
    requires IsIsoInstant(iso)
    ensures |Of(iso)| == 14 && ToIsoSeconds(Of(iso)) == iso[..19]
  {
    RebuildSeconds(iso);
  }

  /** Putting the separators back between the seconds digits. */
  lemma RebuildSeconds(iso: string)
    requires |iso| >= 19
    requires iso[4] == '-' && iso[7] == '-' && iso[10] == 'T' && iso[13] == ':' && iso[16] == ':'
    ensures ToIsoSeconds(SecondsDigits(iso)) == iso[..19]
  {
    var ts := SecondsDigits(iso);
    assert ts[0..4] == iso[0..4];
    assert ts[4..6] == iso[5..7];
    assert ts[6..8] == iso[8..10];
    assert ts[8..10] == iso[11..13];
    assert ts[10..12] == iso[14..16];
    assert ts[12..14] == iso[17..19];
  }
}

=== FILE: utf8.dfy ===
/**
 * `Buffer.from(string)`: the bytes of a string in UTF-8, the encoding Node
 * uses by default, together with a decoder that inverts it.
 */
module Utf8 {
  import opened Wrappers
  import opened Bytes

  /** Unicode scalar values: the code points a `char` can hold. */
  predicate IsScalar(n: int)
  {
    (0 <= n < 0xD800) || (0xE000 <= n < 0x11_0000)
  }

  /** The one to four bytes of one code point. */
  function EncodeChar(c: char): (r: seq<Byte>)
    ensures 1 <= |r| <= 4
    ensures |r| == 1 <==> (c as int) < 0x80
    ensures |r| == SequenceLength(r[0])
  {
    var n := c as int;
    if n < 0x80 then
      [n]
    else if n < 0x800 then
      [0xC0 + n / 64, 0x80 + n % 64]
    else if n < 0x1_0000 then
      [0xE0 + n / 4096, 0x80 + (n / 64) % 64, 0x80 + n % 64]
    else
      [0xF0 + n / 262144, 0x80 + (n / 4096) % 64, 0x80 + (n / 64) % 64, 0x80 + n % 64]
  }

  /** The length of the sequence a leading byte announces; 0 when the byte
      cannot start a sequence. */
  function SequenceLength(lead: Byte): nat
  {
    if lead < 0x80 then 1
    else if lead < 0xC0 then 0
    else if lead < 0xE0 then 2
    else if lead < 0xF0 then 3
    else if lead < 0xF8 then 4
    else 0
  }

  predicate IsContinuation(b: Byte)
  {
    0x80 <= b < 0xC0
  }

  /** Every byte after the first is a continuation byte `10xxxxxx`. */
  predicate ContinuationsOk(bs: seq<Byte>)
  {
    forall i :: 1 <= i < |bs| ==> IsContinuation(bs[i])
  }

  /** The code point the payload bits of a sequence spell. */
  function SequenceValue(bs: seq<Byte>): int
    requires 1 <= |bs| <= 4
  {
    if |bs| == 1 then bs[0] as int
    else if |bs| == 2 then (bs[0] as int - 0xC0) * 64 + (bs[1] as int - 0x80)
    else if |bs| == 3 then
      (bs[0] as int - 0xE0) * 4096 + (bs[1] as int - 0x80) * 64 + (bs[2] as int - 0x80)
    else
      (bs[0] as int - 0xF0) * 262144 + (bs[1] as int - 0x80) * 4096
        + (bs[2] as int - 0x80) * 64 + (bs[3] as int - 0x80)
  }

  /** The smallest code point a sequence of `len` bytes may carry. A smaller
      one has a shorter sequence, and section 3 of RFC 3629 forbids the
      longer, overlong form. */
  function ShortestFrom(len: nat): int
  {
    if len <= 1 then 0
    else if len == 2 then 0x80
    else if len == 3 then 0x800
    else 0x1_0000
  }

  /** The code point of one complete sequence, if it names a scalar value in
      its shortest form. */
  function DecodeSequence(bs: seq<Byte>): Option<char>
    requires 1 <= |bs| <= 4 && |bs| == SequenceLength(bs[0])
  {
    if !ContinuationsOk(bs) then
      None
    else
      var n := SequenceValue(bs);
      if IsScalar(n) && n >= ShortestFrom(|bs|) then Some(n as char) else None
  }

  /** The bytes of a string; decoding them gives the string back, so the
      bytes determine the string. */
  function Encode(s: string): (r: seq<Byte>)
    ensures |s| <= |r| <= 4 * |s|
    ensures Decode(r) == Some(s)
  {
    if |s| == 0 then
      []
    else
      var tail := Encode(s[1..]);
      DecodeAfterChar(s[0], tail, s[1..]);
      assert [s[0]] + s[1..] == s;
      EncodeChar(s[0]) + tail
  }

  function Decode(bs: seq<Byte>): Option<string>
    decreases |bs|
  {
    if |bs| == 0 then
      Some([])
    else
      var n := SequenceLength(bs[0]);
      if n == 0 || |bs| < n then
        None
      else
        match DecodeSequence(bs[..n])
        case None => None
        case Some(c) =>
          match Decode(bs[n..])
          case None => None
          case Some(rest) => Some([c] + rest)
  }

  /** An ASCII string encodes to one byte per character, each equal to its code. */
  lemma {:induction false} EncodeAscii(s: string)
    requires forall i :: 0 <= i < |s| ==> (s[i] as int) < 0x80
    ensures |Encode(s)| == |s|
    ensures forall i :: 0 <= i < |s| ==> Encode(s)[i] == s[i] as int
  {
    if |s| > 0 {
      EncodeAscii(s[1..]);
    }
  }

  lemma DecodeEncodeChar(c: char)
    ensures DecodeSequence(EncodeChar(c)) == Some(c)
  {
    var n := c as int;
    if n < 0x80 {
    } else if n < 0x800 {
      TwoBytes(n);
    } else if n < 0x1_0000 {
      ThreeBytes(n);
    } else {
      FourBytes(n);
    }
  }

  lemma TwoBytes(n: int)
    requires 0x80 <= n < 0x800
    ensures SequenceValue([0xC0 + n / 64, 0x80 + n % 64]) == n
    ensures ContinuationsOk([0xC0 + n / 64, 0x80 + n % 64])
  {
  }

  lemma ThreeBytes(n: int)
    requires 0x800 <= n < 0x1_0000
    ensures SequenceValue([0xE0 + n / 4096, 0x80 + (n / 64) % 64, 0x80 + n % 64]) == n
    ensures ContinuationsOk([0xE0 + n / 4096, 0x80 + (n / 64) % 64, 0x80 + n % 64])
  {
    assert n / 64 == (n / 4096) * 64 + (n / 64) % 64;
  }

  lemma FourBytes(n: int)
    requires 0x1_0000 <= n < 0x11_0000
    ensures SequenceValue([0xF0 + n / 262144, 0x80 + (n / 4096) % 64, 0x80 + (n / 64) % 64, 0x80 + n % 64]) == n
    ensures ContinuationsOk([0xF0 + n / 262144, 0x80 + (n / 4096) % 64, 0x80 + (n / 64) % 64, 0x80 + n % 64])
  {
    assert n / 4096 == (n / 262144) * 64 + (n / 4096) % 64;
    assert n / 64 == (n / 4096) * 64 + (n / 64) % 64;
  }

  /** Decoding reads one encoded character off the front and carries on. */
  lemma {:induction false} DecodeAfterChar(c: char, tail: seq<Byte>, rest: string)
    requires Decode(tail) == Some(rest)
    ensures Decode(EncodeChar(c) + tail) == Some([c] + rest)
  {
    var head := EncodeChar(c);
    var bs := head + tail;
    assert bs[..|head|] == head;
    assert bs[|head|..] == tail;
    DecodeEncodeChar(c);
  }

  lemma DivMod64(q: int, r: int)
    requires 0 <= r < 64
    ensures (q * 64 + r) / 64 == q && (q * 64 + r) % 64 == r
  {
  }

  lemma DivMod4096(q: int, r: int)
    requires 0 <= r < 4096
    ensures (q * 4096 + r) / 4096 == q
  {
  }

  lemma DivMod262144(q: int, r: int)
    requires 0 <= r < 262144
    ensures (q * 262144 + r) / 262144 == q
  {
  }

  /** A two-byte sequence in shortest form is the encoding of its value. */
  lemma EncodeTwo(b0: Byte, b1: Byte)
    requires 0xC0 <= b0 < 0xE0 && IsContinuation(b1)
    requires SequenceValue([b0, b1]) >= 0x80
    ensures EncodeChar(SequenceValue([b0, b1]) as char) == [b0, b1]
  {
    var n := SequenceValue([b0, b1]);
    DivMod64(b0 - 0xC0, b1 - 0x80);
    assert n < 0x800;
  }

  /** A three-byte sequence in shortest form is the encoding of its value. */
  lemma EncodeThree(b0: Byte, b1: Byte, b2: Byte)
    requires 0xE0 <= b0 < 0xF0 && IsContinuation(b1) && IsContinuation(b2)
    requires SequenceValue([b0, b1, b2]) >= 0x800 && IsScalar(SequenceValue([b0, b1, b2]))
    ensures EncodeChar(SequenceValue([b0, b1, b2]) as char) == [b0, b1, b2]
  {
    var p0, p1, p2 := b0 - 0xE0, b1 - 0x80, b2 - 0x80;
    var n := SequenceValue([b0, b1, b2]);
    assert n == (p0 * 64 + p1) * 64 + p2;
    DivMod64(p0 * 64 + p1, p2);
    DivMod64(p0, p1);
    DivMod4096(p0, p1 * 64 + p2);
    assert n < 0x1_0000;
  }

  /** A four-byte sequence in shortest form is the encoding of its value. */
  lemma EncodeFour(b0: Byte, b1: Byte, b2: Byte, b3: Byte)
    requires 0xF0 <= b0 < 0xF8 && IsContinuation(b1) && IsContinuation(b2) && IsContinuation(b3)
    requires SequenceValue([b0, b1, b2, b3]) >= 0x1_0000 && IsScalar(SequenceValue([b0, b1, b2, b3]))
    ensures EncodeChar(SequenceValue([b0, b1, b2, b3]) as char) == [b0, b1, b2, b3]
  {
    var p0, p1, p2, p3 := b0 - 0xF0, b1 - 0x80, b2 - 0x80, b3 - 0x80;
    var n := SequenceValue([b0, b1, b2, b3]);
    assert n == ((p0 * 64 + p1) * 64 + p2) * 64 + p3;
    DivMod64((p0 * 64 + p1) * 64 + p2, p3);
    DivMod64(p0 * 64 + p1, p2);
    DivMod4096(p0 * 64 + p1, p2 * 64 + p3);
    DivMod64(p0, p1);
    DivMod262144(p0, (p1 * 64 + p2) * 64 + p3);
  }

  /** A sequence the decoder accepts is the encoding of the character it
      decodes to. */
  lemma EncodeDecodeSequence(bs: seq<Byte>, c: char)
    requires 1 <= |bs| <= 4 && |bs| == SequenceLength(bs[0])
    requires DecodeSequence(bs) == Some(c)
    ensures EncodeChar(c) == bs
  {
    if |bs| == 2 {
      EncodeTwo(bs[0], bs[1]);
      assert bs == [bs[0], bs[1]];
    } else if |bs| == 3 {
      EncodeThree(bs[0], bs[1], bs[2]);
      assert bs == [bs[0], bs[1], bs[2]];
    } else if |bs| == 4 {
      EncodeFour(bs[0], bs[1], bs[2], bs[3]);
      assert bs == [bs[0], bs[1], bs[2], bs[3]];
    }
  }

  /** Decoding non-empty bytes reads one sequence off the front. */
  lemma DecodeFront(bs: seq<Byte>)
    requires |bs| > 0 && Decode(bs).Some?
    ensures var n := SequenceLength(bs[0]);
            && 1 <= n <= |bs|
            && DecodeSequence(bs[..n]).Some?
            && Decode(bs[n..]).Some?
            && Decode(bs).value == [DecodeSequence(bs[..n]).value] + Decode(bs[n..]).value
  {
  }

  /** Encoding inverts decoding: bytes that decode are the encoding of the
      string they decode to. With the contract of `Encode`, each string has
      exactly one UTF-8 byte sequence. */
  lemma {:induction false} EncodeDecode(bs: seq<Byte>, s: string)
    requires Decode(bs) == Some(s)
    ensures Encode(s) == bs
    decreases |bs|
  {
    if |bs| > 0 {
      DecodeFront(bs);
      var n := SequenceLength(bs[0]);
      var head, tail := bs[..n], bs[n..];
      var c, rest := DecodeSequence(head).value, Decode(tail).value;
      EncodeDecodeSequence(head, c);
      EncodeDecode(tail, rest);
      assert s[0] == c && s[1..] == rest;
      assert Encode(s) == EncodeChar(c) + Encode(rest);
      assert bs == head + tail;
    }
  }
}

=== FILE: wrappers.dfy ===
/** Optional values, used by the decoders of this model. */
module Wrappers {

  datatype Option<+T> = None | Some(value: T)
}
